=== FILE: README.md ===
# Payment fulfilment of a one-product Stripe checkout server

This project models the payment logic of a small web server that sells
products through Stripe Checkout. A user starts a checkout for a product.
Stripe later reports the paid session in one of two ways: a signed webhook
(`POST /webhooks/stripe`, the push path) or the browser's return to
`GET /purchase/success?sessionId=` (the pull path). Both paths call
`fulfillPayment`. That function retrieves the session from Stripe and
validates it. It then grants the product through `addOwnedProduct` at most
once per session id, using an in-memory set of handled session ids as its
ledger.

The model is functional. The server's state is a `Store`: the ledger (a set
of session ids) and the log of `addOwnedProduct` grants made so far. The
webhook and return-from-checkout routes are pure functions from their inputs
and a `Store` to a reply and a new `Store`. The checkout route returns the
Stripe calls it makes, its reply and the user record. Anything the server gets from outside is a parameter:

- what Stripe returns for a session (`None` when the lookup throws);
- the outcome of the webhook signature check;
- the id of a newly created customer, or `None` when `customers.create` rejects;
- the session `checkout.sessions.create` returns, whose URL may be null, or `None` when the call rejects;
- how a created checkout session reads back later. `SessionFromRequest` assumes Stripe returns the requested metadata unchanged and exactly one line item with the requested quantity, and the checkout round trip rests on that;
- the confirmation page that the pull path redirects to.

Modules:

- `Sessions`: the retrieved checkout session and the checks made on it before the ledger is consulted (`Validate`).
- `Fulfillment`: `fulfillPayment` as a transition on the `Store`. Its verdict `Fulfilled` or `AlreadyHandled` is the source's `true`, `Rejected` is `false`, and `Failed` is a thrown exception.
- `Ingress`: the webhook and return-from-checkout routes.
- `Checkout`: the checkout-session route, returned as the list of Stripe calls it makes plus its reply.
- `Traces`: runs of many calls and deliveries. This is where exactly-once is proved: any number of deliveries, through either route and in any order, leave every passing session's id in the ledger, add no other id, and add one grant per new ledger id.
- `Wrappers`, `Http`: `Option` and the HTTP replies.

Behaviour of the server that the model keeps, although a reader might not expect it:

- A session with line items but an empty item list makes `data[0].quantity` throw a TypeError. The model treats this as a fault, not a rejection.
- The pull path's query schema accepts any string, including the empty one. An empty `sessionId` is passed on to `fulfillPayment`.
- An exception inside the webhook handler is caught and answered 400. An exception on the pull path escapes the handler, and the framework answers it with 500.
- The source returns only a boolean. The distinction between `Fulfilled` and `AlreadyHandled` is the model's: the two differ only in whether the state changed.
- A created customer id is not saved to the user record (the TODO at `server/src/index.ts:47`). The checkout route returns the user record unchanged; see `Checkout.CustomerCreatedOnEveryCheckout`.
- A rejected `customers.create` or `checkout.sessions.create` makes the checkout handler throw, and the framework answers 500. The calls made before the rejection stay made: a customer may exist although no session was requested.

## Model

| member | source | states |
|---|---|---|
| Sessions.Validate | server/src/index.ts:126-142 | A session passes exactly when the lookup succeeded, it is not unpaid (`paid` and `no_payment_required` both pass), its metadata has both `productId` and `userId`, and its first line item has a quantity. The grant it yields carries those three values. A failed lookup or an empty item list throws. Unpaid is reported before missing metadata, and missing metadata before missing line items. |
| Fulfillment.Fulfill | server/src/index.ts:126-154 | A call that does not fulfil leaves the ledger and the grant log exactly as they were, whatever the reason. Fulfilling needs the id to be absent from the ledger. It then adds exactly that id and appends exactly the grant `(userId, productId, quantity)` the session asks for. The result is `true` exactly when the session passes validation. A failing session answers `false` exactly when validation rejects it, with the same reason, and throws exactly when validation throws (failed lookup, empty item list). The ledger never loses an id and the grant log only grows at its end. |
| Fulfillment.HandledIdIsFrozen | server/src/index.ts:144-153 | Once an id is in the ledger, no later call for it changes the state, whatever Stripe returns; a passing session is answered `true` (`AlreadyHandled`). |
| Fulfillment.FulfillIsIdempotent | server/src/index.ts:144-153 | After a call that answered `true`, a second call with the same id leaves the state unchanged, even if the session is re-fetched, and answers `true` again when the session passes. |
| Fulfillment.UnpaidDoesNotBlockLaterPayment | server/src/index.ts:130-150 | A new session rejected as unpaid leaves no ledger entry, so a later call for the same id with a paid session is fulfilled and appends its grant. |
| Ingress.Webhook | server/src/index.ts:80-105 | A missing signature header or secret gives 400 without calling fulfilment. A payload that fails verification gives 400 without calling it. Verified events of other types give 200 without calling it. For `checkout.session.completed` and `checkout.session.async_payment_succeeded`, fulfilment is called with the event's session id. The reply is then 200 exactly when fulfilment answered `true`, and 400 on `false` or an exception. The state changes only through that call. |
| Ingress.PurchaseSuccess | server/src/index.ts:107-123 | A missing `sessionId` gives 400 without calling fulfilment. Otherwise fulfilment is called with that id. The browser is redirected to the confirmation page exactly when it answered `true`; `false` gives 400 and an exception gives 500. |
| Ingress.RoutesAgree | server/src/index.ts:93-122 | For the same session id, Stripe answer and state, a verified payment webhook and a return from checkout leave the same state and the same verdict. The webhook is acknowledged with 200 exactly when the browser is redirected. |
| Checkout.FindProduct | server/src/index.ts:34 | Returns the index of the first catalogue product with the requested id, or none exactly when no product has that id. |
| Checkout.CreateCheckoutSession | server/src/index.ts:32-77 | An unknown product gives 404 exactly when no product matches, and then no Stripe call is made. Otherwise a customer is created, tagged with the user's name, email and id, exactly when the user has no stored customer id; a stored id is reused. If creating the customer rejects, the reply is 500 and no session is requested. Otherwise a single session is requested with quantity 1, that customer, and metadata `{productId: product.id, userId: user.id}`. The reply redirects to the session URL exactly when the session was created with a URL, and is 500 otherwise. The user record comes back unchanged: the new customer id is not stored. |
| Checkout.CheckoutThenFulfillGrantsProduct | server/src/index.ts:63-69 | Round trip from checkout to fulfilment. Take the session the route requests (whenever it gets as far as requesting one), read back as Stripe stored it, once it is paid or free. Fulfilling it under a new session id answers `Fulfilled` and appends exactly one grant: the requesting user, the requested product, quantity 1. |
| Checkout.CustomerCreatedOnEveryCheckout | server/src/index.ts:37-48 | A user without a stored customer id checks out, and then checks out again with the user record the first checkout left. Both checkouts create a customer, and each session is billed to the customer created for it. The second checkout does not reuse the first customer. |
| Traces.RunCalls | server/src/index.ts:130-153 | Over any sequence of calls, each call answers `true` exactly when its session passes every check, and the fulfilled calls are exactly the calls answered `Fulfilled`, in order. The ledger only grows. The fulfilled calls are for pairwise different ids, none of them in the ledger before the run. The ledger gains exactly their ids, and these are exactly the ids of the passing calls that it did not hold before: every call whose session passes every check ends with its id in the ledger. The grant log gains exactly one grant per fulfilled call. |
| Traces.RunAnswersEachCallByValidation | server/src/index.ts:130-153 | In any run, the `i`-th call answers `true` exactly when its own session passes every check, whatever the calls before it did. |
| Traces.RunGrantsMatchCalls | server/src/index.ts:144-150 | Every fulfilled call of a run is one of its calls, and its session passes every check. The grants the run appends are exactly the ones those sessions ask for, in the same order. |
| Traces.GrantsMatchNewLedgerIds | server/src/index.ts:130-150 | Exactly-once over any run. The grant log gains as many grants as the ledger gains ids. Every id the ledger gains belongs to a call of the run whose session passed every check. Every call whose session passes every check ends with its id in the ledger. |
| Traces.RepeatAfterHandled | server/src/index.ts:144-153 | Any number of repetitions of a passing call for an id already in the ledger change nothing, and each answers `AlreadyHandled`. |
| Traces.RepeatedDeliveryGrantsOnce | server/src/index.ts:144-153 | N ≥ 1 deliveries of one passing session for a new id end with exactly that id added to the ledger and exactly one grant appended. The first answers `Fulfilled` and every later one `AlreadyHandled`. |
| Traces.Serve | server/src/index.ts:80-123 | Both routes are thin. A delivery changes the state only through the one fulfilment call it leads to, and a delivery that leads to none leaves the state unchanged. |
| Traces.ServeAllIsRunOfCalls | server/src/index.ts:80-123 | Serving any mix of webhook and return-from-checkout deliveries ends in the same state as running just the fulfilment calls they make, in order. |
| Traces.PushThenPullGrantsOnce | server/src/index.ts:93-122 | Dual-path convergence, for a new session that passes validation. A payment webhook followed by the browser's return grants once, answers the webhook 200 and redirects the browser. It ends in the same state as two webhooks, and as two returns. |
| Traces.DeliveriesGrantOncePerId | server/src/index.ts:80-153 | Any sequence of deliveries through either route, duplicates included, only extends the state, and it appends as many grants as it adds ledger ids. Every delivery that leads to a fulfilment call with a passing session ends with that session id in the ledger. Every id the ledger gains comes from such a delivery. |

## Left out

- Stripe API calls (`checkout.sessions.retrieve`, `checkout.sessions.create`, `customers.create`) are network I/O. Their results are parameters, and the checkout's calls are returned as descriptions.
- The webhook signature check (`webhooks.constructEvent`) is an HMAC inside Stripe's library. Only its outcome is modelled: the decoded event, or `None` when it, or reading the body, throws.
- `addOwnedProduct` and `getOwnedProducts` live in `server/src/lib/ownedProducts.js`, which is not part of this model. A grant is a log entry, not a quantity increment, and the `GET /owned-products` route is left out.
- The price conversion `unit_amount: product.price * 100` is floating-point arithmetic on catalogue prices. The session request carries no price.
- `GET /products`, CORS, routing, `serve`, dotenv and the hard-coded URLs are HTTP and configuration plumbing. The pull path's confirmation URL is a parameter. The checkout's success and cancel URLs, currency and mode are not modelled.
- Concurrency between the two delivery paths is left out: calls are sequential. In the source no `await` separates the ledger test from the insert. A ledgered id whose `addOwnedProduct` call then rejects is an I/O failure and is not modelled.
- Persisting a created customer id is not done by the source (TODO at `server/src/index.ts:47`), so it is not modelled.
- The static `products.json` catalogue and `user.json` user become the `catalog` and `user` parameters.

=== FILE: checkout.dfy ===
/**
 * `POST /products/:id/create-checkout-session`: the provider calls the route
 * makes and the reply it gives. Provider results (the created customer's id,
 * the session's URL) are parameters; the price conversion is not modelled.
 */
module Checkout {
  import opened Wrappers
  import opened Http
  import opened Sessions
  import opened Fulfillment

  datatype Product = Product(id: string, name: string, description: string)

  /** The user record; `stripeCustomerId` is absent until one has been stored. */
  datatype User = User(id: string, name: string, email: string, stripeCustomerId: Option<string>)

  /** The one-line-item payment session the route asks the provider to create. */
  datatype SessionRequest = SessionRequest(
    customer: string,
    productName: string,
    productDescription: string,
    quantity: int,
    metadata: map<string, string>)

  datatype ProviderCall =
    | CreateCustomer(name: string, email: string, userId: string)
    | CreateSession(request: SessionRequest)

  /** What `checkout.sessions.create` returned: a session whose `url` may be null. */
  datatype CreatedSession = CreatedSession(url: Option<string>)

  /**
   * The Stripe calls the route made (in order, the one that threw
   * included), its reply, and the user record as the route leaves it.
   */
  datatype Outcome = Outcome(calls: seq<ProviderCall>, response: Response, user: User)

  /** `products.find(p => p.id === id)`, as the index of the first product with that id. */
  function FindProduct(catalog: seq<Product>, id: string): (r: Option<nat>)
    ensures r.Some? ==> r.value < |catalog| && catalog[r.value].id == id
    ensures r.Some? ==> forall j :: 0 <= j < r.value ==> catalog[j].id != id
    ensures r.None? <==> forall j :: 0 <= j < |catalog| ==> catalog[j].id != id
    decreases |catalog|
  {
    if |catalog| == 0 then None
    else if catalog[0].id == id then Some(0)
    else match FindProduct(catalog[1..], id)
      case None => None
      case Some(k) => Some(k + 1)
  }

  /** The customer the session is billed to: the stored one, else the one just created (if creating it succeeded). */
  function BilledCustomer(user: User, customerCreated: Option<string>): Option<string>
  {
    if user.stripeCustomerId.Some? then user.stripeCustomerId else customerCreated
  }

  /**
   * The route for product `id` on behalf of `user`. `customerCreated` is the
   * id of the customer `customers.create` made (`None` when that call
   * rejected); `sessionCreated` is what `checkout.sessions.create` returned
   * (`None` when it rejected). A rejected call or a session without a URL
   * makes the handler throw, which the framework answers with a server error.
   */
  function CreateCheckoutSession(catalog: seq<Product>, user: User, id: string,
                                 customerCreated: Option<string>,
                                 sessionCreated: Option<CreatedSession>): (r: Outcome)
    // An unknown product is answered 404 before any provider call.
    ensures FindProduct(catalog, id).None? <==> r == Outcome([], Text(NotFound), user)
    // A created customer's id is never written back to the user record.
    ensures r.user == user
    ensures FindProduct(catalog, id).Some? ==>
              && 1 <= |r.calls| <= 2
              // a customer is created exactly when the user has none stored; a stored one is reused
              && (r.calls[0].CreateCustomer? <==> user.stripeCustomerId.None?)
              && (r.calls[0].CreateCustomer? ==> r.calls[0] == CreateCustomer(user.name, user.email, user.id))
              // a rejected customer creation stops the route before any session is requested
              && (BilledCustomer(user, customerCreated).None? ==> |r.calls| == 1 && r.response == Text(ServerError))
    ensures FindProduct(catalog, id).Some? && BilledCustomer(user, customerCreated).Some? ==>
              var p := catalog[FindProduct(catalog, id).value];
              && |r.calls| == (if user.stripeCustomerId.None? then 2 else 1)
              && r.calls[|r.calls| - 1] == CreateSession(SessionRequest(
                   BilledCustomer(user, customerCreated).value, p.name, p.description, 1,
                   map[ProductIdKey := p.id, UserIdKey := user.id]))
    // The browser is sent to the session's URL only when every call succeeded and a URL came back.
    ensures r.response.Redirect? <==>
              && FindProduct(catalog, id).Some? && BilledCustomer(user, customerCreated).Some?
              && sessionCreated.Some? && sessionCreated.value.url.Some?
    ensures r.response.Redirect? ==> r.response.location == sessionCreated.value.url.value
    ensures FindProduct(catalog, id).Some? && !r.response.Redirect? ==> r.response == Text(ServerError)
  {
    match FindProduct(catalog, id)
    case None => Outcome([], Text(NotFound), user)
    case Some(k) =>
      var product := catalog[k];
      var customerCalls :=
        if user.stripeCustomerId.None? then [CreateCustomer(user.name, user.email, user.id)] else [];
      match BilledCustomer(user, customerCreated)
      case None => Outcome(customerCalls, Text(ServerError), user)
      case Some(customer) =>
        var request := SessionRequest(
          customer, product.name, product.description, 1,
          map[ProductIdKey := product.id, UserIdKey := user.id]);
        var response :=
          match sessionCreated
          case Some(CreatedSession(Some(url))) => Redirect(url)
          case _ => Text(ServerError);
        Outcome(customerCalls + [CreateSession(request)], response, user)
  }

  /** A provider session as it reads back once created from `request`, in status `status`. */
  function SessionFromRequest(request: SessionRequest, status: PaymentStatus): CheckoutSession
  {
    CheckoutSession(status, Some(request.metadata), Some([LineItem(Some(request.quantity))]))
  }

  /**
   * Round trip from checkout to fulfilment: the session the route creates,
   * once paid (or free), is fulfilled for a new id by granting one unit of
   * the requested product to the user, because the metadata written here is
   * exactly what fulfilment reads back.
   */
  lemma CheckoutThenFulfillGrantsProduct(catalog: seq<Product>, user: User, id: string,
                                         customerCreated: Option<string>,
                                         sessionCreated: Option<CreatedSession>,
                                         status: PaymentStatus, sessionId: string, st: Store)
    requires FindProduct(catalog, id).Some?
    requires BilledCustomer(user, customerCreated).Some?
    requires status != Unpaid
    requires sessionId !in st.ledger
    ensures var r := CreateCheckoutSession(catalog, user, id, customerCreated, sessionCreated);
            var request := r.calls[|r.calls| - 1].request;
            var step := Fulfill(sessionId, Some(SessionFromRequest(request, status)), st);
            && step.verdict == Fulfilled
            && step.store.grants == st.grants + [Grant(user.id, id, 1)]
  {
  }

  /**
   * The TODO of the route: the created customer's id is not written back,
   * so checking out again with the user record the first checkout left
   * creates a second customer, and each session is billed to the customer
   * created for it.
   */
  lemma CustomerCreatedOnEveryCheckout(catalog: seq<Product>, user: User, id: string,
                                       firstCustomer: string, secondCustomer: string,
                                       firstSession: Option<CreatedSession>,
                                       secondSession: Option<CreatedSession>)
    requires FindProduct(catalog, id).Some?
    requires user.stripeCustomerId.None?
    ensures var first := CreateCheckoutSession(catalog, user, id, Some(firstCustomer), firstSession);
            var second := CreateCheckoutSession(catalog, first.user, id, Some(secondCustomer), secondSession);
            && first.calls[0] == CreateCustomer(user.name, user.email, user.id)
            && second.calls[0] == CreateCustomer(user.name, user.email, user.id)
            && first.calls[1].request.customer == firstCustomer
            && second.calls[1].request.customer == secondCustomer
  {
  }
}

=== FILE: fulfillment.dfy ===
/**
 * `fulfillPayment`: the state machine that turns a retrieved checkout session
 * into at most one ownership grant per session id, using the in-memory set of
 * handled session ids as its idempotency ledger.
 */
module Fulfillment {
  import opened Wrappers
  import opened Sessions

  /**
   * The server's mutable state as far as fulfilment touches it: the ids in
   * `handledSessions`, and the `addOwnedProduct` calls made so far, in order.
   */
  datatype Store = Store(ledger: set<string>, grants: seq<Grant>)

  /**
   * What one call came to. `Fulfilled` and `AlreadyHandled` are both the
   * source's `true`, `Rejected` its `false`; `Failed` is a thrown exception.
   */
  datatype Verdict = Fulfilled | AlreadyHandled | Rejected(reason: Rejection) | Failed(fault: Fault) {
    predicate Succeeded() { Fulfilled? || AlreadyHandled? }
  }

  datatype Step = Step(verdict: Verdict, store: Store)

  /** `st'` extends `st`: no id left the ledger and the grant log only grew at its end. */
  predicate Extends(st: Store, st': Store)
  {
    st.ledger <= st'.ledger && st.grants <= st'.grants
  }

  /**
   * `fulfillPayment(sessionId)`, where `fetched` is what the provider
   * returned for `sessionId` (`None` when the lookup failed).
   */
  function Fulfill(sessionId: string, fetched: Option<CheckoutSession>, st: Store): (r: Step)
    // A call that does not fulfil leaves the ledger and the grant log as they were.
    ensures !r.verdict.Fulfilled? ==> r.store == st
    // Fulfilling adds exactly this id to the ledger and appends exactly the session's grant.
    ensures r.verdict.Fulfilled? ==>
              && sessionId !in st.ledger
              && r.store.ledger == st.ledger + {sessionId}
              && Validate(fetched).Accept?
              && r.store.grants == st.grants + [Validate(fetched).grant]
    ensures Extends(st, r.store)
    // The source's boolean: true exactly when the session passes every check.
    ensures r.verdict.Succeeded() <==>
              fetched.Some? && IsPaid(fetched.value) && IsTagged(fetched.value) && IsCounted(fetched.value)
    ensures r.verdict.Fulfilled? <==> r.verdict.Succeeded() && sessionId !in st.ledger
    // A failing session answers `false` when validation rejects it and throws when validation throws.
    ensures r.verdict.Rejected? ==> Validate(fetched) == Reject(r.verdict.reason)
    ensures r.verdict.Failed? <==> Validate(fetched).Throw?
    ensures r.verdict.Failed? ==> r.verdict.fault == Validate(fetched).fault
    ensures fetched.Some? && !IsPaid(fetched.value) ==> r == Step(Rejected(NotPaid), st)
    ensures fetched.Some? && IsPaid(fetched.value) && !IsTagged(fetched.value) ==>
              r == Step(Rejected(MissingMetadata), st)
  {
    match Validate(fetched)
    case Throw(f) => Step(Failed(f), st)
    case Reject(why) => Step(Rejected(why), st)
    case Accept(g) =>
      if sessionId in st.ledger then Step(AlreadyHandled, st)
      else Step(Fulfilled, Store(st.ledger + {sessionId}, st.grants + [g]))
  }

  /**
   * Once an id is in the ledger, no later call for it changes anything,
   * whatever the provider returns this time; a passing session is answered `true`.
   */
  lemma HandledIdIsFrozen(sessionId: string, fetched: Option<CheckoutSession>, st: Store)
    requires sessionId in st.ledger
    ensures Fulfill(sessionId, fetched, st).store == st
    ensures Validate(fetched).Accept? ==> Fulfill(sessionId, fetched, st).verdict == AlreadyHandled
  {
  }

  /**
   * Idempotence: repeating a call with the same id leaves the state of the
   * first call untouched and still answers `true` when the first did.
   */
  lemma FulfillIsIdempotent(sessionId: string, fetched: Option<CheckoutSession>, fetchedAgain: Option<CheckoutSession>, st: Store)
    requires Fulfill(sessionId, fetched, st).verdict.Succeeded()
    ensures var first := Fulfill(sessionId, fetched, st);
            var second := Fulfill(sessionId, fetchedAgain, first.store);
            && second.store == first.store
            && (Validate(fetchedAgain).Accept? ==> second.verdict == AlreadyHandled)
  {
  }

  /**
   * A session turned down as unpaid leaves nothing behind, so the same id
   * is granted normally once the provider reports it paid.
   */
  lemma UnpaidDoesNotBlockLaterPayment(sessionId: string, unpaid: CheckoutSession, paid: CheckoutSession, st: Store)
    requires unpaid.paymentStatus == Unpaid
    requires sessionId !in st.ledger
    requires Validate(Some(paid)).Accept?
    ensures var first := Fulfill(sessionId, Some(unpaid), st);
            && first.verdict == Rejected(NotPaid)
            && Fulfill(sessionId, Some(paid), first.store).verdict == Fulfilled
            && Fulfill(sessionId, Some(paid), first.store).store.grants == st.grants + [Validate(Some(paid)).grant]
  {
  }
}

=== FILE: http.dfy ===
/** The few HTTP responses the payment routes produce. */
module Http {

  /** A plain-text reply with a status code, or a 302 redirect to `location`. */
  datatype Response = Text(status: int) | Redirect(location: string)

  const Ok := 200
  const BadRequest := 400
  const NotFound := 404
  /** What the web framework answers when a handler throws. */
  const ServerError := 500
}

=== FILE: ingress.dfy ===
/**
 * The two routes that hand a session id to `fulfillPayment`: the provider's
 * signed webhook (push) and the browser's return from checkout (pull).
 * Neither keeps state of its own; both only translate the verdict.
 */
module Ingress {
  import opened Wrappers
  import opened Http
  import opened Sessions
  import opened Fulfillment

  /** A webhook event as the signature check decodes it: its type and `data.object.id`. */
  datatype Event = Event(kind: string, objectId: string)

  const CheckoutCompleted := "checkout.session.completed"
  const AsyncPaymentSucceeded := "checkout.session.async_payment_succeeded"

  /** The event types that mean a checkout session has been paid for. */
  predicate IsPaymentEvent(kind: string)
  {
    kind == CheckoutCompleted || kind == AsyncPaymentSucceeded
  }

  /**
   * A route's reply, the state after it, and the verdict of the
   * `fulfillPayment` call it made (`None` when it made none).
   */
  datatype Handled = Handled(response: Response, store: Store, verdict: Option<Verdict>)

  /**
   * `POST /webhooks/stripe`. `signature` is the `stripe-signature` header,
   * `secret` the configured webhook secret, and `event` what the signature
   * check returned (`None` when reading the body or the check threw).
   * Everything thrown inside the handler is answered 400.
   */
  function Webhook(signature: Option<string>, secret: Option<string>, event: Option<Event>,
                   fetched: Option<CheckoutSession>, st: Store): (h: Handled)
    // A missing header or secret is refused before anything else happens.
    ensures signature.None? || secret.None? ==> h == Handled(Text(BadRequest), st, None)
    // A payload that fails verification is refused without fulfilling.
    ensures event.None? ==> h.response == Text(BadRequest) && h.store == st && h.verdict.None?
    // Fulfilment is attempted exactly for verified payment events, for the event's session id.
    ensures h.verdict.Some? <==>
              signature.Some? && secret.Some? && event.Some? && IsPaymentEvent(event.value.kind)
    ensures h.verdict.Some? ==>
              var step := Fulfill(event.value.objectId, fetched, st);
              h.verdict.value == step.verdict && h.store == step.store
    ensures h.verdict.None? ==> h.store == st
    // Other verified events are acknowledged and ignored.
    ensures signature.Some? && secret.Some? && event.Some? && !IsPaymentEvent(event.value.kind) ==>
              h.response == Text(Ok)
    // A fulfilment that is not `true` (false or thrown) is a 400, so the provider retries.
    ensures h.verdict.Some? ==> (h.response == Text(Ok) <==> h.verdict.value.Succeeded())
    ensures h.response == Text(Ok) || h.response == Text(BadRequest)
  {
    if signature.None? || secret.None? then Handled(Text(BadRequest), st, None)
    else match event
      case None => Handled(Text(BadRequest), st, None)
      case Some(e) =>
        if !IsPaymentEvent(e.kind) then Handled(Text(Ok), st, None)
        else
          var step := Fulfill(e.objectId, fetched, st);
          Handled(if step.verdict.Succeeded() then Text(Ok) else Text(BadRequest), step.store, Some(step.verdict))
  }

  /**
   * `GET /purchase/success?sessionId=`. `query` is the `sessionId` query
   * parameter (any string, the empty one included, passes the route's
   * schema); `confirmation` is where a successful purchase is redirected.
   * An exception from `fulfillPayment` escapes the handler and the framework
   * answers it with a server error.
   */
  function PurchaseSuccess(query: Option<string>, fetched: Option<CheckoutSession>, st: Store,
                           confirmation: string): (h: Handled)
    ensures query.None? ==> h == Handled(Text(BadRequest), st, None)
    ensures query.Some? ==>
              var step := Fulfill(query.value, fetched, st);
              h.verdict == Some(step.verdict) && h.store == step.store
    ensures h.response.Redirect? <==> h.verdict.Some? && h.verdict.value.Succeeded()
    ensures h.response.Redirect? ==> h.response.location == confirmation
    ensures h.verdict.Some? && h.verdict.value.Rejected? ==> h.response == Text(BadRequest)
    ensures h.verdict.Some? && h.verdict.value.Failed? ==> h.response == Text(ServerError)
  {
    match query
    case None => Handled(Text(BadRequest), st, None)
    case Some(sessionId) =>
      var step := Fulfill(sessionId, fetched, st);
      var response :=
        match step.verdict
        case Fulfilled => Redirect(confirmation)
        case AlreadyHandled => Redirect(confirmation)
        case Rejected(_) => Text(BadRequest)
        case Failed(_) => Text(ServerError);
      Handled(response, step.store, Some(step.verdict))
  }

  /**
   * The two routes agree: for the same session id, provider answer and
   * state, a verified payment webhook and a return from checkout leave the
   * same state, and the webhook acknowledges exactly when the browser is redirected.
   */
  lemma RoutesAgree(sessionId: string, fetched: Option<CheckoutSession>, st: Store,
                    signature: string, secret: string, kind: string, confirmation: string)
    requires IsPaymentEvent(kind)
    ensures var push := Webhook(Some(signature), Some(secret), Some(Event(kind, sessionId)), fetched, st);
            var pull := PurchaseSuccess(Some(sessionId), fetched, st, confirmation);
            && push.store == pull.store
            && push.verdict == pull.verdict
            && (push.response == Text(Ok) <==> pull.response.Redirect?)
  {
  }
}

=== FILE: sessions.dfy ===
/**
 * The checkout-session record the payment provider returns when the server
 * retrieves a session with its line items expanded, and the validation that
 * `fulfillPayment` applies to it before it may grant anything.
 */
module Sessions {
  import opened Wrappers

  datatype PaymentStatus = Unpaid | Paid | NoPaymentRequired

  /** One entry of `line_items.data`; the provider may leave `quantity` null. */
  datatype LineItem = LineItem(quantity: Option<int>)

  /**
   * `metadata` is the provider's string-to-string map (itself nullable);
   * `lineItems` is `line_items.data` when `line_items` is present.
   */
  datatype CheckoutSession = CheckoutSession(
    paymentStatus: PaymentStatus,
    metadata: Option<map<string, string>>,
    lineItems: Option<seq<LineItem>>)

  /** One call `addOwnedProduct(userId, productId, quantity)`. */
  datatype Grant = Grant(userId: string, productId: string, quantity: int)

  /** Ways a retrieved session is turned down with a `false` verdict. */
  datatype Rejection = NotPaid | MissingMetadata | MissingLineItems

  /** Ways the validation throws instead of returning. */
  datatype Fault =
    | LookupFailed     // `sessions.retrieve` rejected
    | NoFirstLineItem  // `line_items.data` is empty, so `data[0].quantity` is a TypeError

  datatype Check = Accept(grant: Grant) | Reject(reason: Rejection) | Throw(fault: Fault)

  const ProductIdKey := "productId"
  const UserIdKey := "userId"

  /** `metadata?.[key]`: absent when the map or the key is. */
  function Field(metadata: Option<map<string, string>>, key: string): Option<string>
  {
    match metadata
    case None => None
    case Some(m) => if key in m then Some(m[key]) else None
  }

  /** The session's payment has not been refused as unpaid. */
  predicate IsPaid(s: CheckoutSession)
  {
    s.paymentStatus != Unpaid
  }

  /** The session carries both identifiers that the checkout wrote into its metadata. */
  predicate IsTagged(s: CheckoutSession)
  {
    Field(s.metadata, ProductIdKey).Some? && Field(s.metadata, UserIdKey).Some?
  }

  /** The first line item exists and states its quantity. */
  predicate IsCounted(s: CheckoutSession)
  {
    s.lineItems.Some? && |s.lineItems.value| > 0 && s.lineItems.value[0].quantity.Some?
  }

  /**
   * The checks of `fulfillPayment` before it consults the ledger, in the
   * source's order: a failed lookup throws; an unpaid session, missing
   * metadata and a missing line-item quantity are rejected; an empty list of
   * line items throws; otherwise the grant the session asks for is returned.
   */
  function Validate(fetched: Option<CheckoutSession>): (c: Check)
    ensures c.Accept? <==> fetched.Some? && IsPaid(fetched.value) && IsTagged(fetched.value) && IsCounted(fetched.value)
    ensures c.Accept? ==>
              && Some(c.grant.productId) == Field(fetched.value.metadata, ProductIdKey)
              && Some(c.grant.userId) == Field(fetched.value.metadata, UserIdKey)
              && Some(c.grant.quantity) == fetched.value.lineItems.value[0].quantity
    ensures c == Throw(LookupFailed) <==> fetched.None?
    ensures c == Reject(NotPaid) <==> fetched.Some? && !IsPaid(fetched.value)
    ensures c == Reject(MissingMetadata) <==>
              fetched.Some? && IsPaid(fetched.value) && !IsTagged(fetched.value)
    ensures c == Throw(NoFirstLineItem) <==>
              && fetched.Some? && IsPaid(fetched.value) && IsTagged(fetched.value)
              && fetched.value.lineItems == Some([])
  {
    match fetched
    case None => Throw(LookupFailed)
    case Some(s) =>
      if s.paymentStatus == Unpaid then Reject(NotPaid)
      else
        var productId := Field(s.metadata, ProductIdKey);
        var userId := Field(s.metadata, UserIdKey);
        if productId.None? || userId.None? then Reject(MissingMetadata)
        else match s.lineItems
          case None => Reject(MissingLineItems)
          case Some(items) =>
            if |items| == 0 then Throw(NoFirstLineItem)
            else match items[0].quantity
              case None => Reject(MissingLineItems)
              case Some(q) => Accept(Grant(userId.value, productId.value, q))
  }
}

=== FILE: traces.dfy ===
/**
 * Sequences of deliveries: at-least-once delivery through either route,
 * against the effect that must happen at most once per session id.
 */
module Traces {
  import opened Wrappers
  import opened Http
  import opened Sessions
  import opened Fulfillment
  import opened Ingress

  /** One `fulfillPayment(sessionId)` call and what the provider returned for it. */
  datatype Call = Call(sessionId: string, fetched: Option<CheckoutSession>)

  /**
   * The verdicts of a run of calls, the calls that were answered `Fulfilled`
   * (in order), and the final state.
   */
  datatype Run = Run(verdicts: seq<Verdict>, granted: seq<Call>, store: Store)

  /** No two of `cs` are for the same session id. */
  predicate DistinctIds(cs: seq<Call>)
  {
    forall i, j :: 0 <= i < j < |cs| ==> cs[i].sessionId != cs[j].sessionId
  }

  /** The session ids of `cs`. */
  function Ids(cs: seq<Call>): set<string>
    decreases |cs|
  {
    if |cs| == 0 then {} else {cs[0].sessionId} + Ids(cs[1..])
  }

  /** The calls of `calls` whose verdict in `verdicts` is `Fulfilled`, in order. */
  function FulfilledCalls(calls: seq<Call>, verdicts: seq<Verdict>): seq<Call>
    requires |verdicts| == |calls|
    decreases |calls|
  {
    if |calls| == 0 then []
    else (if verdicts[0].Fulfilled? then [calls[0]] else []) + FulfilledCalls(calls[1..], verdicts[1..])
  }

  /** The session ids of the calls of `cs` whose session passes every check. */
  function AcceptedIds(cs: seq<Call>): set<string>
    decreases |cs|
  {
    if |cs| == 0 then {}
    else (if Validate(cs[0].fetched).Accept? then {cs[0].sessionId} else {}) + AcceptedIds(cs[1..])
  }

  /** Each call of `calls` is answered `true` in `verdicts` exactly when its session passes every check. */
  predicate AnsweredByValidation(calls: seq<Call>, verdicts: seq<Verdict>)
    requires |verdicts| == |calls|
    decreases |calls|
  {
    |calls| > 0 ==>
      && (verdicts[0].Succeeded() <==> Validate(calls[0].fetched).Accept?)
      && AnsweredByValidation(calls[1..], verdicts[1..])
  }

  /**
   * Performs `calls` one after another, starting from `st`. Each call
   * answers `true` exactly when its session passes every check, and the
   * fulfilled calls are the ones answered `Fulfilled`. Over any run
   * the ledger only grows; the fulfilled calls are pairwise for different
   * ids, none of them in the ledger before; the ledger gains exactly those
   * ids, which are exactly the ids of the passing calls it did not hold
   * yet; and the grant log gains exactly one grant per fulfilled call.
   */
  function RunCalls(calls: seq<Call>, st: Store): (r: Run)
    ensures |r.verdicts| == |calls|
    ensures AnsweredByValidation(calls, r.verdicts)
    ensures r.granted == FulfilledCalls(calls, r.verdicts)
    ensures Extends(st, r.store)
    ensures DistinctIds(r.granted)
    ensures forall i :: 0 <= i < |r.granted| ==> r.granted[i].sessionId !in st.ledger
    ensures r.store.ledger == st.ledger + Ids(r.granted)
    ensures r.store.ledger == st.ledger + AcceptedIds(calls)
    ensures |r.store.grants| == |st.grants| + |r.granted|
    decreases |calls|
  {
    if |calls| == 0 then Run([], [], st)
    else
      var step := Fulfill(calls[0].sessionId, calls[0].fetched, st);
      var rest := RunCalls(calls[1..], step.store);
      var verdicts := [step.verdict] + rest.verdicts;
      assert verdicts[1..] == rest.verdicts;
      if step.verdict.Fulfilled? then
        var granted := [calls[0]] + rest.granted;
        assert granted[1..] == rest.granted;
        assert forall j :: 0 < j < |granted| ==> granted[j] == rest.granted[j - 1];
        Run(verdicts, granted, rest.store)
      else
        Run(verdicts, rest.granted, rest.store)
  }

  /** Every call of `cs` carries a session that passes every check. */
  predicate AllValidated(cs: seq<Call>)
  {
    forall i :: 0 <= i < |cs| ==> Validate(cs[i].fetched).Accept?
  }

  /** The grants that the sessions of validated calls `cs` ask for, in order. */
  function AskedGrants(cs: seq<Call>): seq<Grant>
    requires AllValidated(cs)
    decreases |cs|
  {
    if |cs| == 0 then [] else [Validate(cs[0].fetched).grant] + AskedGrants(cs[1..])
  }

  /** The call-by-call reading of `AnsweredByValidation`. */
  lemma {:induction false} AnsweredByValidationAt(calls: seq<Call>, verdicts: seq<Verdict>)
    requires |verdicts| == |calls|
    requires AnsweredByValidation(calls, verdicts)
    ensures forall i :: 0 <= i < |calls| ==>
              (verdicts[i].Succeeded() <==> Validate(calls[i].fetched).Accept?)
    decreases |calls|
  {
    if |calls| > 0 {
      AnsweredByValidationAt(calls[1..], verdicts[1..]);
      forall i | 0 < i < |calls|
        ensures verdicts[i].Succeeded() <==> Validate(calls[i].fetched).Accept?
      {
        assert calls[i] == calls[1..][i - 1] && verdicts[i] == verdicts[1..][i - 1];
      }
    }
  }

  /**
   * In any run, the `i`-th call answers `true` exactly when its session
   * passes every check.
   */
  lemma RunAnswersEachCallByValidation(calls: seq<Call>, st: Store)
    ensures var r := RunCalls(calls, st);
            forall i :: 0 <= i < |calls| ==>
              (r.verdicts[i].Succeeded() <==> Validate(calls[i].fetched).Accept?)
  {
    var r := RunCalls(calls, st);
    AnsweredByValidationAt(calls, r.verdicts);
  }

  /** Every call `FulfilledCalls` keeps is one of the calls it was given. */
  lemma {:induction false} FulfilledCallsAreCalls(calls: seq<Call>, verdicts: seq<Verdict>)
    requires |verdicts| == |calls|
    ensures forall c :: c in FulfilledCalls(calls, verdicts) ==> c in calls
    decreases |calls|
  {
    if |calls| > 0 {
      FulfilledCallsAreCalls(calls[1..], verdicts[1..]);
      forall c | c in calls[1..]
        ensures c in calls
      {
        var k :| 0 <= k < |calls[1..]| && calls[1..][k] == c;
        assert calls[k + 1] == c;
      }
    }
  }

  /** Every fulfilled call of a run carries a session that passes every check. */
  lemma {:induction false} RunGrantedAreValidated(calls: seq<Call>, st: Store)
    ensures AllValidated(RunCalls(calls, st).granted)
    decreases |calls|
  {
    if |calls| > 0 {
      var step := Fulfill(calls[0].sessionId, calls[0].fetched, st);
      var rest := RunCalls(calls[1..], step.store);
      RunGrantedAreValidated(calls[1..], step.store);
      var r := RunCalls(calls, st);
      if step.verdict.Fulfilled? {
        assert r.granted == [calls[0]] + rest.granted;
      } else {
        assert r.granted == rest.granted;
      }
    }
  }

  /** One step of a run: the first call, then the rest of the run from the state it left. */
  lemma RunCallsStep(calls: seq<Call>, st: Store)
    requires |calls| > 0
    ensures var step := Fulfill(calls[0].sessionId, calls[0].fetched, st);
            var rest := RunCalls(calls[1..], step.store);
            && RunCalls(calls, st).store == rest.store
            && RunCalls(calls, st).granted == (if step.verdict.Fulfilled? then [calls[0]] else []) + rest.granted
  {
  }

  /**
   * Every fulfilled call of a run is one of its calls and carries a session
   * that passes every check, and the grants the run appends are exactly
   * the ones those sessions ask for, in order.
   */
  lemma {:induction false} RunGrantsMatchCalls(calls: seq<Call>, st: Store)
    ensures forall c :: c in RunCalls(calls, st).granted ==> c in calls
    ensures AllValidated(RunCalls(calls, st).granted)
    ensures RunCalls(calls, st).store.grants == st.grants + AskedGrants(RunCalls(calls, st).granted)
    decreases |calls|
  {
    FulfilledCallsAreCalls(calls, RunCalls(calls, st).verdicts);
    RunGrantedAreValidated(calls, st);
    if |calls| > 0 {
      var step := Fulfill(calls[0].sessionId, calls[0].fetched, st);
      RunGrantsMatchCalls(calls[1..], step.store);
      RunCallsStep(calls, st);
      if step.verdict.Fulfilled? {
        var rest := RunCalls(calls[1..], step.store);
        var g := Validate(calls[0].fetched).grant;
        AskedGrantsCons(calls[0], rest.granted);
        assert step.store.grants == st.grants + [g];
        AppendAssociates(st.grants, [g], AskedGrants(rest.granted));
      }
    }
  }

  /** Concatenation of grant logs is associative. */
  lemma AppendAssociates(a: seq<Grant>, b: seq<Grant>, c: seq<Grant>)
    ensures (a + b) + c == a + (b + c)
  {
  }

  /** `AskedGrants` of a call followed by others. */
  lemma AskedGrantsCons(c: Call, cs: seq<Call>)
    requires AllValidated([c] + cs)
    ensures Validate(c.fetched).Accept?
    ensures AllValidated(cs)
    ensures AskedGrants([c] + cs) == [Validate(c.fetched).grant] + AskedGrants(cs)
  {
    assert ([c] + cs)[0] == c;
    assert ([c] + cs)[1..] == cs;
    forall i | 0 <= i < |cs|
      ensures Validate(cs[i].fetched).Accept?
    {
      assert cs[i] == ([c] + cs)[i + 1];
    }
  }

  /** `Ids` holds exactly the session ids that occur in `cs`. */
  lemma {:induction false} IdsAreTheCallIds(cs: seq<Call>)
    ensures forall id :: id in Ids(cs) <==> exists i :: 0 <= i < |cs| && cs[i].sessionId == id
    decreases |cs|
  {
    if |cs| > 0 {
      IdsAreTheCallIds(cs[1..]);
      forall id | id in Ids(cs[1..])
        ensures exists i :: 0 <= i < |cs| && cs[i].sessionId == id
      {
        var i :| 0 <= i < |cs[1..]| && cs[1..][i].sessionId == id;
        assert cs[i + 1].sessionId == id;
      }
      forall i | 0 < i < |cs|
        ensures cs[i].sessionId in Ids(cs[1..])
      {
        assert cs[1..][i - 1] == cs[i];
      }
    }
  }

  /** Calls for pairwise different ids have as many ids as calls. */
  lemma {:induction false} DistinctIdsCount(cs: seq<Call>)
    requires DistinctIds(cs)
    ensures |Ids(cs)| == |cs|
    decreases |cs|
  {
    if |cs| > 0 {
      DistinctIdsCount(cs[1..]);
      IdsAreTheCallIds(cs[1..]);
      assert cs[0].sessionId !in Ids(cs[1..]);
    }
  }

  /** `AcceptedIds` holds exactly the ids of the calls of `cs` whose session passes every check. */
  lemma {:induction false} AcceptedIdsAreThePassingCallIds(cs: seq<Call>)
    ensures forall id :: id in AcceptedIds(cs) <==>
              exists c :: c in cs && c.sessionId == id && Validate(c.fetched).Accept?
    decreases |cs|
  {
    if |cs| > 0 {
      AcceptedIdsAreThePassingCallIds(cs[1..]);
      forall c | c in cs[1..]
        ensures c in cs
      {
        var k :| 0 <= k < |cs[1..]| && cs[1..][k] == c;
        assert cs[k + 1] == c;
      }
      forall c | c in cs && c != cs[0]
        ensures c in cs[1..]
      {
        var k :| 0 <= k < |cs| && cs[k] == c;
        assert cs[1..][k - 1] == c;
      }
    }
  }

  /**
   * Exactly-once over any run of calls. The grant log gains exactly as
   * many grants as the ledger gains ids. Every id the ledger gains belongs
   * to a call of the run whose session passed every check, and every call
   * whose session passes every check ends with its id in the ledger.
   */
  lemma GrantsMatchNewLedgerIds(calls: seq<Call>, st: Store)
    ensures var r := RunCalls(calls, st);
            |r.store.grants| - |st.grants| == |r.store.ledger - st.ledger|
    ensures var r := RunCalls(calls, st);
            forall id :: id in r.store.ledger - st.ledger ==>
              exists c :: c in calls && c.sessionId == id && Validate(c.fetched).Accept?
    ensures var r := RunCalls(calls, st);
            forall c :: c in calls && Validate(c.fetched).Accept? ==> c.sessionId in r.store.ledger
  {
    var r := RunCalls(calls, st);
    IdsAreTheCallIds(r.granted);
    assert r.store.ledger - st.ledger == Ids(r.granted);
    DistinctIdsCount(r.granted);
    AcceptedIdsAreThePassingCallIds(calls);
  }

  /** `n` copies of the same call. */
  function Repeat(c: Call, n: nat): (r: seq<Call>)
    ensures |r| == n
  {
    if n == 0 then [] else [c] + Repeat(c, n - 1)
  }

  /** Repeating a call for an id already in the ledger changes nothing and only ever answers `AlreadyHandled`. */
  lemma {:induction false} RepeatAfterHandled(c: Call, n: nat, st: Store)
    requires c.sessionId in st.ledger
    requires Validate(c.fetched).Accept?
    ensures RunCalls(Repeat(c, n), st).store == st
    ensures RunCalls(Repeat(c, n), st).granted == []
    ensures forall i :: 0 <= i < n ==> RunCalls(Repeat(c, n), st).verdicts[i] == AlreadyHandled
  {
    if n > 0 {
      RepeatAfterHandled(c, n - 1, st);
      assert Repeat(c, n)[1..] == Repeat(c, n - 1);
    }
  }

  /**
   * N deliveries of one valid session for a new id grant once: the first
   * answers `Fulfilled`, every other `AlreadyHandled`, and the state ends
   * with one more ledger id and one more grant.
   */
  lemma RepeatedDeliveryGrantsOnce(c: Call, n: nat, st: Store)
    requires n >= 1
    requires c.sessionId !in st.ledger
    requires Validate(c.fetched).Accept?
    ensures var r := RunCalls(Repeat(c, n), st);
            && r.store == Store(st.ledger + {c.sessionId}, st.grants + [Validate(c.fetched).grant])
            && r.verdicts[0] == Fulfilled
            && (forall i :: 1 <= i < n ==> r.verdicts[i] == AlreadyHandled)
  {
    var step := Fulfill(c.sessionId, c.fetched, st);
    assert Repeat(c, n)[1..] == Repeat(c, n - 1);
    RepeatAfterHandled(c, n - 1, step.store);
  }

  /** A request reaching one of the two routes. */
  datatype Delivery =
    | Push(signature: Option<string>, secret: Option<string>, event: Option<Event>, fetched: Option<CheckoutSession>)
    | Pull(query: Option<string>, fetched: Option<CheckoutSession>)

  /**
   * Serves one delivery; a successful return from checkout goes to
   * `confirmation`. The routes are thin: the state changes only through
   * the one fulfilment call the delivery leads to.
   */
  function Serve(d: Delivery, st: Store, confirmation: string): (h: Handled)
    ensures CallOf(d).None? ==> h.store == st && h.verdict.None?
    ensures CallOf(d).Some? ==>
              var step := Fulfill(CallOf(d).value.sessionId, CallOf(d).value.fetched, st);
              h.store == step.store && h.verdict == Some(step.verdict)
  {
    match d
    case Push(signature, secret, event, fetched) => Webhook(signature, secret, event, fetched, st)
    case Pull(query, fetched) => PurchaseSuccess(query, fetched, st, confirmation)
  }

  /** Serves `ds` in order and returns the replies and the final state. */
  function ServeAll(ds: seq<Delivery>, st: Store, confirmation: string): (seq<Response>, Store)
    decreases |ds|
  {
    if |ds| == 0 then ([], st)
    else
      var h := Serve(ds[0], st, confirmation);
      var rest := ServeAll(ds[1..], h.store, confirmation);
      ([h.response] + rest.0, rest.1)
  }

  /** The `fulfillPayment` call a delivery leads to, if any. */
  function CallOf(d: Delivery): Option<Call>
  {
    match d
    case Push(signature, secret, event, fetched) =>
      if signature.Some? && secret.Some? && event.Some? && IsPaymentEvent(event.value.kind)
      then Some(Call(event.value.objectId, fetched)) else None
    case Pull(query, fetched) =>
      if query.Some? then Some(Call(query.value, fetched)) else None
  }

  function CallsOf(ds: seq<Delivery>): seq<Call>
    decreases |ds|
  {
    if |ds| == 0 then []
    else (match CallOf(ds[0]) case Some(c) => [c] case None => []) + CallsOf(ds[1..])
  }

  /**
   * The routes add no state of their own: serving any mix of webhook and
   * return-from-checkout deliveries ends in the state reached by running
   * just the fulfilment calls they make, so exactly-once carries over to
   * deliveries arriving by either path.
   */
  lemma {:induction false} ServeAllIsRunOfCalls(ds: seq<Delivery>, st: Store, confirmation: string)
    ensures ServeAll(ds, st, confirmation).1 == RunCalls(CallsOf(ds), st).store
    decreases |ds|
  {
    if |ds| > 0 {
      var h := Serve(ds[0], st, confirmation);
      ServeAllIsRunOfCalls(ds[1..], h.store, confirmation);
      match CallOf(ds[0])
      case None =>
        assert CallsOf(ds) == CallsOf(ds[1..]);
      case Some(c) =>
        assert CallsOf(ds) == [c] + CallsOf(ds[1..]);
        assert ([c] + CallsOf(ds[1..]))[1..] == CallsOf(ds[1..]);
    }
  }

  /** Serving two deliveries is serving the first, then the second from the state it left. */
  lemma ServeTwo(d1: Delivery, d2: Delivery, st: Store, confirmation: string)
    ensures var h1 := Serve(d1, st, confirmation);
            var h2 := Serve(d2, h1.store, confirmation);
            ServeAll([d1, d2], st, confirmation) == ([h1.response, h2.response], h2.store)
  {
    var h1 := Serve(d1, st, confirmation);
    var h2 := Serve(d2, h1.store, confirmation);
    assert [d1, d2][1..] == [d2];
    assert [d2][1..] == [];
    assert ServeAll([], h2.store, confirmation) == ([], h2.store);
    var last := ServeAll([d2], h1.store, confirmation);
    assert last == ([h2.response] + [], h2.store);
    assert [h2.response] + [] == [h2.response];
    assert [h1.response] + [h2.response] == [h1.response, h2.response];
  }

  /**
   * Dual-path convergence: a payment webhook followed by the browser's
   * return for the same new session grants once, acknowledges the webhook
   * and redirects the browser, just as two webhooks or two returns would.
   */
  lemma PushThenPullGrantsOnce(sessionId: string, s: CheckoutSession, st: Store,
                               signature: string, secret: string, kind: string, confirmation: string)
    requires IsPaymentEvent(kind)
    requires sessionId !in st.ledger
    requires Validate(Some(s)).Accept?
    ensures var push := Push(Some(signature), Some(secret), Some(Event(kind, sessionId)), Some(s));
            var pull := Pull(Some(sessionId), Some(s));
            var once := Store(st.ledger + {sessionId}, st.grants + [Validate(Some(s)).grant]);
            && ServeAll([push, pull], st, confirmation) == ([Text(Ok), Redirect(confirmation)], once)
            && ServeAll([push, push], st, confirmation).1 == once
            && ServeAll([pull, pull], st, confirmation).1 == once
  {
    var push := Push(Some(signature), Some(secret), Some(Event(kind, sessionId)), Some(s));
    var pull := Pull(Some(sessionId), Some(s));
    var once := Serve(push, st, confirmation).store;
    assert Serve(pull, st, confirmation).store == once;
    HandledIdIsFrozen(sessionId, Some(s), once);
    assert Serve(pull, once, confirmation).response == Redirect(confirmation);
    assert Serve(push, once, confirmation).store == once;
    assert Serve(pull, once, confirmation).store == once;
    ServeTwo(push, pull, st, confirmation);
    ServeTwo(push, push, st, confirmation);
    ServeTwo(pull, pull, st, confirmation);
  }

  /** The calls `CallsOf(ds)` holds are exactly the calls the deliveries of `ds` lead to. */
  lemma {:induction false} CallsOfAreTheDeliveriesCalls(ds: seq<Delivery>)
    ensures forall c :: c in CallsOf(ds) <==> exists i :: 0 <= i < |ds| && CallOf(ds[i]) == Some(c)
    decreases |ds|
  {
    if |ds| > 0 {
      CallsOfAreTheDeliveriesCalls(ds[1..]);
      var head: seq<Call> := match CallOf(ds[0]) case Some(c) => [c] case None => [];
      assert CallsOf(ds) == head + CallsOf(ds[1..]);
      forall c | c in CallsOf(ds)
        ensures exists i :: 0 <= i < |ds| && CallOf(ds[i]) == Some(c)
      {
        if c in head {
          assert CallOf(ds[0]) == Some(c);
        } else {
          assert c in CallsOf(ds[1..]);
          var k :| 0 <= k < |ds[1..]| && CallOf(ds[1..][k]) == Some(c);
          assert ds[1..][k] == ds[k + 1];
        }
      }
      forall c, i | 0 <= i < |ds| && CallOf(ds[i]) == Some(c)
        ensures c in CallsOf(ds)
      {
        if i == 0 {
          assert head == [c];
        } else {
          assert ds[1..][i - 1] == ds[i];
          assert c in CallsOf(ds[1..]);
        }
      }
    }
  }

  /**
   * Exactly-once for any mix of webhook and return-from-checkout
   * deliveries, duplicates included. The state only grows, by as many
   * grants as new ledger ids. Every delivery whose fulfilment call
   * carries a passing session ends with its id in the ledger, and every
   * new ledger id comes from such a delivery.
   */
  lemma {:induction false} DeliveriesGrantOncePerId(ds: seq<Delivery>, st: Store, confirmation: string)
    ensures var after := ServeAll(ds, st, confirmation).1;
            && Extends(st, after)
            && |after.grants| - |st.grants| == |after.ledger - st.ledger|
    ensures var after := ServeAll(ds, st, confirmation).1;
            forall i :: 0 <= i < |ds| && CallOf(ds[i]).Some? && Validate(CallOf(ds[i]).value.fetched).Accept? ==>
              CallOf(ds[i]).value.sessionId in after.ledger
    ensures var after := ServeAll(ds, st, confirmation).1;
            forall id :: id in after.ledger - st.ledger ==>
              exists i :: 0 <= i < |ds| && CallOf(ds[i]).Some? && CallOf(ds[i]).value.sessionId == id
                          && Validate(CallOf(ds[i]).value.fetched).Accept?
  {
    ServeAllIsRunOfCalls(ds, st, confirmation);
    GrantsMatchNewLedgerIds(CallsOf(ds), st);
    CallsOfAreTheDeliveriesCalls(ds);
    var after := ServeAll(ds, st, confirmation).1;
    forall id | id in after.ledger - st.ledger
      ensures exists i :: 0 <= i < |ds| && CallOf(ds[i]).Some? && CallOf(ds[i]).value.sessionId == id
                          && Validate(CallOf(ds[i]).value.fetched).Accept?
    {
      var c :| c in CallsOf(ds) && c.sessionId == id && Validate(c.fetched).Accept?;
      var i :| 0 <= i < |ds| && CallOf(ds[i]) == Some(c);
    }
  }
}

=== FILE: wrappers.dfy ===
/** Optional values, standing in for the `null`/`undefined` the server tests with `== null`. */
module Wrappers {

  datatype Option<+T> = None | Some(value: T)
}
